=== FILE: README.md ===
# Cache-aside shop lookups, modelled in Dafny

This project models the caching core of the hm-dianping shop service. It covers the generic
`CacheClient` and the shop-specific copies in `ShopServiceImpl`. Each cache operation is a pure
state transition over an immutable key-value store, `map<string, Entry>`, where an entry holds
a string value and the expiry it was written with. Time is an integer number of seconds passed
in as `now`. The loader (the caller's `dbFallBack`, or the shop table's `getById`) is a
function from id to optional entity. JSON conversion is a record of four caller-supplied
functions: encoder and decoder for the payload, and for the logical-expiry envelope. Every
query returns a `Step`. A `Step` holds the answer, the store afterwards, how many times the
loader ran, and whether a background rebuild was handed off.

Modules, leaves first:

- `Wrappers`: `Option`, standing in for a nullable Java reference.
- `KvStore`: the store and its GET / SET / SET NX / DEL. It also holds `TimeUnit.toSeconds`,
  Hutool's `isBlank`, and key construction (`prefix + id`).
- `Serialization`: the envelope `{data, expireTime}`, staleness, and the abstract JSON codec.
  The `RoundTrips` predicate says what a faithful codec must satisfy.
- `Answers`: a query's answer (entity, null, JSON failure, retries exhausted) and `Step`.
- `RedisConstants`: the key prefixes and TTLs, which are configuration here.
- `Lock`: `tryLock` / `unLock`. Both classes carry identical private copies; this module
  defines them once.
- `CacheClient`, `ShopService`: the operations of the two classes.
- `CacheClientProperties`, `ShopServiceProperties`: lemmas that relate several calls.

Modelling choices:

- The mutex strategy retries without bound in the source. Here the retries follow a
  schedule, `waits`. Each element is the store the caller finds after one 50 ms sleep, so
  other clients may have changed any cache key meanwhile. The shop table stays as it was for
  the whole query. When the schedule runs out the answer is `Exhausted`.
- The logical-expiry read only returns `rebuild = true`. The rebuild it submits is a separate
  function, `RebuildTask`, with its own `now`.

Where the code and the design intent differ, the model follows the code:

- `CacheClient.queeryWithLogicalExpire` always locks `LOCK_SHOP_KEY + id`, whatever the key
  prefix is. This is shown by `CacheClientProperties.RebuildLockSharedAcrossPrefixes`.
- `setWithLogicalExpire` gives the entry a physical TTL of `time` itself, with no margin
  beyond the logical lifetime. The logical lifetime is `toSeconds(time)`, truncated to whole
  seconds, so the two agree only for whole seconds: 1500 ms is 1 s logical and 1.5 s physical,
  and under one second the logical lifetime is zero. `saveShop2Redis` gives the entry no
  physical TTL.
- In `queeryWithMutex` the `finally` also runs after a failed acquisition and its retry. So a
  caller deletes a lock it never held. This is shown by
  `ShopServiceProperties.MutexSpinsThenDeletesForeignLock` and `MutexRetryReadsRebuiltValue`.
- A cached value that does not parse is not treated as a miss. Hutool throws, and here the
  answer is `Malformed` with the store unchanged.
- In `CacheClient` the envelope is written as `RedisData` and read back as `RedisDate`.
  `ShopServiceImpl` uses `RedisDate` for both. Neither class is part of this model. Both are
  taken to be one class with fields `data` and `expireTime`.
- A hit or a null-sentinel answer never touches the lock. So "the lock key is absent
  afterwards" holds on the mutex strategy's miss paths only. On the other paths the store is
  unchanged.
- The source spells three of the methods `queery…`. The model spells them `Query…`.

## Model

| member | source | states |
|---|---|---|
| KvStore.ToSeconds | hm-dianping/src/main/java/com/hmdp/utils/CacheClient.java:38 | `unit.toSeconds(time)` is positive exactly when the duration is at least one whole second, and negative exactly when it is at most minus one second |
| KvStore.ToSecondsValue | hm-dianping/src/main/java/com/hmdp/utils/CacheClient.java:38 | for a long duration, `unit.toSeconds(time)` is its whole number of seconds rounded toward zero (compared in nanoseconds) while that fits in a long, and `Long.MAX_VALUE` / `Long.MIN_VALUE` beyond |
| Lock.TryLock | hm-dianping/src/main/java/com/hmdp/service/impl/ShopServiceImpl.java:183-186 | the lock is acquired iff the key was absent; then the key maps to "1" with a 10-second TTL and nothing else changes; on failure the store is unchanged |
| Lock.UnLock | hm-dianping/src/main/java/com/hmdp/service/impl/ShopServiceImpl.java:188-190 | release removes exactly the lock key and leaves every other key as it was |
| Lock.TryLockExclusive | hm-dianping/src/main/java/com/hmdp/utils/CacheClient.java:116-119 | once one caller holds the lock, a second attempt fails and changes nothing |
| Lock.TryLockThenUnLock | hm-dianping/src/main/java/com/hmdp/utils/CacheClient.java:116-123 | acquiring a free lock and releasing it restores the store exactly |
| Lock.UnLockIgnoresOwner | hm-dianping/src/main/java/com/hmdp/utils/CacheClient.java:121-123 | release is unconditional: it removes a lock that the caller could not have acquired |
| Serialization.Wrap | hm-dianping/src/main/java/com/hmdp/utils/CacheClient.java:35-38 | the envelope carries the payload, and its expiry lies after `now` iff the lifetime is positive |
| Serialization.WrapStaleAfterTtl | hm-dianping/src/main/java/com/hmdp/service/impl/ShopServiceImpl.java:73-78 | an envelope wrapped for `s > 0` seconds is fresh when written and stale exactly from `now + s` on (`isAfter` is strict) |
| RedisConstants.NullSentinel | hm-dianping/src/main/java/com/hmdp/utils/CacheClient.java:61 | the not-found marker is a blank string, so the hit test treats it as "known absent" |
| Answers.ReadCachedRoundTrip | hm-dianping/src/main/java/com/hmdp/utils/CacheClient.java:47-51 | with a faithful codec, the JSON written for an entity reads back as that entity |
| Answers.ReadEnvelopeRoundTrip | hm-dianping/src/main/java/com/hmdp/utils/CacheClient.java:79-85 | with a faithful codec, the envelope JSON written under a key, whatever its TTL, is read back by the logical-expiry lookup as that same envelope |
| CacheClient.Set | hm-dianping/src/main/java/com/hmdp/utils/CacheClient.java:29-32 | `set` stores the value's JSON under the key with the caller's TTL, readable back as the value, and leaves every other key unchanged |
| CacheClient.SetWithLogicalExpire | hm-dianping/src/main/java/com/hmdp/utils/CacheClient.java:34-41 | the entry decodes to an envelope of the value expiring `now + toSeconds(time)`; its physical TTL is `time` itself; other keys are unchanged |
| CacheClient.QueryWithPassThrough | hm-dianping/src/main/java/com/hmdp/utils/CacheClient.java:44-70 | the loader runs iff the key is missing; a present key answers from the cache with the store unchanged; a miss caches the sentinel for CACHE_NULL_TTL minutes and answers null, or caches the entity with the caller's TTL and answers it; only the key changes and it is present afterwards |
| CacheClient.QueryWithLogicalExpire | hm-dianping/src/main/java/com/hmdp/utils/CacheClient.java:74-114 | blank or missing answers null with no lock or rebuild; a fresh envelope answers its payload with no lock or rebuild; a stale one answers the stale payload and schedules a rebuild iff `LOCK_SHOP_KEY + id` was free, taking it; the loader never runs and only the lock key can change |
| CacheClient.RebuildTask | hm-dianping/src/main/java/com/hmdp/utils/CacheClient.java:98-108 | the rebuild frees the lock and, when the cache key differs from the lock key, leaves an envelope of the loader's current answer expiring after the caller's lifetime; nothing else changes |
| CacheClientProperties.PassThroughSecondCallHitsCache | hm-dianping/src/main/java/com/hmdp/utils/CacheClient.java:47-69 | whatever the first pass-through query did, an immediate second one never calls the loader, changes nothing and gives the same answer; both together call the loader at most once |
| CacheClientProperties.NullSentinelStopsRepeatedLoads | hm-dianping/src/main/java/com/hmdp/utils/CacheClient.java:54-63 | for an id the loader reports absent, a true miss calls the loader once and answers null; the next query answers null with no loader call |
| CacheClientProperties.LogicalExpireRoundTrip | hm-dianping/src/main/java/com/hmdp/utils/CacheClient.java:34-91 | after `setWithLogicalExpire(key, v, t)` with `toSeconds(t) > 0`, a logical-expiry read at any instant before expiry answers `v` without lock or rebuild |
| CacheClientProperties.SubSecondExpiryIsStaleAtOnce | hm-dianping/src/main/java/com/hmdp/utils/CacheClient.java:38 | a positive lifetime under one second converts to zero seconds, so the next read at the same instant already finds the envelope stale and contends for the lock |
| CacheClientProperties.RebuildLockSharedAcrossPrefixes | hm-dianping/src/main/java/com/hmdp/utils/CacheClient.java:94-95 | while a stale read under one key prefix holds the rebuild lock, a stale read of the same id under any other prefix cannot schedule a rebuild |
| CacheClientProperties.StaleReadRebuildRefreshes | hm-dianping/src/main/java/com/hmdp/utils/CacheClient.java:92-110 | a stale read that took the lock, followed by its rebuild, leaves the lock free and an envelope that the next read answers fresh with the loader's result |
| CacheClientProperties.WarmRunIsSilent | hm-dianping/src/main/java/com/hmdp/utils/CacheClient.java:47-56 | once the key is cached, with a value or the sentinel, any number of pass-through queries answer from it, call no loader and leave the store as it was |
| CacheClientProperties.RepeatedPassThroughLoadsAtMostOnce | hm-dianping/src/main/java/com/hmdp/utils/CacheClient.java:47-69 | `n` pass-through queries in a row call the loader once in all if the key started out missing and never otherwise, and all give the same answer |
| ShopService.UpdateById | hm-dianping/src/main/java/com/hmdp/service/impl/ShopServiceImpl.java:214 | the row with the shop's id is replaced when it exists; no row is added and the other rows are untouched |
| ShopService.QueryWithPassThrough | hm-dianping/src/main/java/com/hmdp/service/impl/ShopServiceImpl.java:154-180 | as the generic pass-through, with the shop table as loader: on a miss it answers the table's row, caching its JSON for CACHE_SHOP_TTL minutes or the sentinel when there is none |
| ShopService.LoadUnderLock | hm-dianping/src/main/java/com/hmdp/service/impl/ShopServiceImpl.java:117-147 | the attempt proceeds iff the lock was free; then it reads the table once, answers its row, caches the shop's JSON for CACHE_SHOP_TTL minutes or the sentinel, releases the lock and changes no other key |
| ShopService.QueryWithMutex | hm-dianping/src/main/java/com/hmdp/service/impl/ShopServiceImpl.java:103-151 | a present key answers from the cache with nothing changed; the table is read at most once, and only by an attempt that found the key missing and the lock free, and then the answer is its row and the cache holds its JSON or the sentinel; without a read the answer is a cached value some attempt found, or the give-up; only the shop key and its lock differ from the initial store or from one the caller found after a wait; every miss path ends with the lock key absent, including after a retry by a caller that never held it |
| ShopService.QueryWithLogicalExpire | hm-dianping/src/main/java/com/hmdp/service/impl/ShopServiceImpl.java:61-100 | blank or missing answers null with no lock; fresh answers the payload with no lock; stale answers the stale payload and schedules a rebuild iff the shop lock was free; only the lock key can change |
| ShopService.SaveShop2Redis | hm-dianping/src/main/java/com/hmdp/service/impl/ShopServiceImpl.java:192-205 | writes an envelope of the table's row (possibly null) expiring `now + expireSeconds`, with no physical TTL; other keys unchanged |
| ShopService.RebuildTask | hm-dianping/src/main/java/com/hmdp/service/impl/ShopServiceImpl.java:85-94 | the submitted task frees the shop lock and leaves an envelope of the current row expiring 20 seconds after it ran |
| ShopService.Update | hm-dianping/src/main/java/com/hmdp/service/impl/ShopServiceImpl.java:206-218 | a shop without an id fails and touches neither table nor cache; otherwise the row is updated and the shop's cache key is absent, every other key unchanged |
| ShopServiceProperties.PassThroughMatchesClient | hm-dianping/src/main/java/com/hmdp/service/impl/ShopServiceImpl.java:154-180 | the shop copy of pass-through equals the generic client at the shop prefix, the shop table and CACHE_SHOP_TTL minutes |
| ShopServiceProperties.LogicalExpireMatchesClient | hm-dianping/src/main/java/com/hmdp/service/impl/ShopServiceImpl.java:61-100 | the shop copy of the logical-expiry read equals the generic client's at the shop prefix |
| ShopServiceProperties.RebuildDiffersFromClientOnlyInTtl | hm-dianping/src/main/java/com/hmdp/service/impl/ShopServiceImpl.java:192-202 | the shop rebuild and the generic rebuild (20 seconds) leave the same keys and values; only the envelope's physical TTL differs, none against 20 seconds |
| ShopServiceProperties.ShopNullSentinelStopsRepeatedLoads | hm-dianping/src/main/java/com/hmdp/service/impl/ShopServiceImpl.java:163-173 | a missing shop costs one table read; the next query answers null from the sentinel with no read and no change |
| ShopServiceProperties.MutexUncontendedIsPassThrough | hm-dianping/src/main/java/com/hmdp/service/impl/ShopServiceImpl.java:118-150 | when the lock is free, the mutex strategy's answer, store and loader count equal pass-through's: the lock it takes is gone again |
| ShopServiceProperties.MutexFirstDecisiveAttemptDecides | hm-dianping/src/main/java/com/hmdp/service/impl/ShopServiceImpl.java:103-151 | the first attempt that finds the shop cached or the lock free decides the query: from a cached value it answers that value with no table read, the store as found (lock deleted after a retry); from a free lock it reads the table once, answers its row and leaves that attempt's store after caching |
| ShopServiceProperties.MutexNoDecisiveAttemptGivesUp | hm-dianping/src/main/java/com/hmdp/service/impl/ShopServiceImpl.java:121-147 | when every attempt finds the shop uncached and the lock held, the caller gives up without reading the table and leaves exactly the store of its last attempt with the lock key deleted; with the first-decisive-attempt lemma this fixes every result of the mutex query |
| ShopServiceProperties.MutexSpinsThenDeletesForeignLock | hm-dianping/src/main/java/com/hmdp/service/impl/ShopServiceImpl.java:121-147 | a caller that always finds the lock held retries until its schedule ends, reads nothing and deletes the lock it never acquired |
| ShopServiceProperties.MutexRetryReadsRebuiltValue | hm-dianping/src/main/java/com/hmdp/service/impl/ShopServiceImpl.java:123-125 | a caller that fails the lock and then finds the shop cached answers from the cache without reading the table, and still deletes the lock key |
| ShopServiceProperties.WarmMutexRunIsSilent | hm-dianping/src/main/java/com/hmdp/service/impl/ShopServiceImpl.java:106-115 | once the shop is cached, further mutex queries answer from the cache, read no table and change nothing |
| ShopServiceProperties.RepeatedMutexLoadsOnce | hm-dianping/src/main/java/com/hmdp/service/impl/ShopServiceImpl.java:118-150 | queries for a cold shop made while the lock is free read the table exactly once in all; every caller gets the loaded row or null, and the lock is free at the end |
| ShopServiceProperties.SaveShop2RedisThenFreshRead | hm-dianping/src/main/java/com/hmdp/service/impl/ShopServiceImpl.java:192-202 | after warming with a positive lifetime, logical-expiry reads before expiry answer the table's row with no lock or rebuild |
| ShopServiceProperties.StaleReadRebuildRefreshes | hm-dianping/src/main/java/com/hmdp/service/impl/ShopServiceImpl.java:79-99 | a stale read that took the lock, followed by the rebuild, leaves the lock free; for the next 20 seconds reads answer the current row fresh |
| ShopServiceProperties.UpdateThenPassThroughReadsNewRow | hm-dianping/src/main/java/com/hmdp/service/impl/ShopServiceImpl.java:213-216 | after an update of an existing row, the next pass-through read misses, reads the new row once, answers it and caches it |
| ShopServiceProperties.UpdateThenLogicalReadIsNull | hm-dianping/src/main/java/com/hmdp/service/impl/ShopServiceImpl.java:66-68 | after an update, the logical-expiry read answers null for that shop until the cache is warmed again, because it never falls back to the table |

## Left out

- Redis I/O is replaced by an in-memory map. Expiry by the store itself is not modelled: the
  TTL is kept as data. So the "after the sentinel TTL the loader runs again" scenario is not
  modelled.
- Eviction of `setWithLogicalExpire` entries is not modelled either. A live store evicts such
  an entry at about the instant it turns stale, because its physical TTL exceeds its logical
  one by less than a second. So the generic stale-read-then-rebuild path, which
  `CacheClientProperties.StaleReadRebuildRefreshes` proves, is reachable only in a short race
  window. After eviction a real read answers null, and this strategy never fills the key again.
- A zero or negative expiry passed to `set` or `setWithLogicalExpire` is rejected by Redis, so
  the Java call throws and nothing is stored. The model records the entry with that TTL.
- Concurrency is left out. This covers the rebuild thread pool, parallel callers and the
  sleeps (50 ms before a retry, 200 ms in the rebuild). Other clients act only during the
  mutex strategy's retry sleep, through `waits`. A rebuild runs as one separate step.
- ShopService.QueryWithMutex: the source retries without bound. The model stops with
  `Exhausted` when the `waits` schedule ends. `Exhausted` stands for the caller giving up, as
  when the unbounded recursion ends in a `StackOverflowError`. As that error unwinds, each
  frame's `finally` runs and deletes the lock key, and the model does the same.
- Hutool JSON serialisation is left out because it is a foreign library. It is an abstract
  codec, and lemmas that need it ask for `RoundTrips`. A failed parse is `Malformed`. Which
  strings fail to parse is left to the codec.
- Hutool's blank test: `IsBlankChar` covers Java whitespace, the Unicode space separators,
  U+FEFF, U+202A and NUL. Some Hutool versions also count U+3164, U+2800 and U+180E.
- `LocalDateTime` is integer seconds. Its range limits and sub-second precision are left out.
  Java `long` overflow in `now + seconds` and in ids is not modelled, apart from the
  saturation in `toSeconds`.
- Exceptions from the loader, `InterruptedException` and store failures are left out. The
  `finally` blocks are modelled only on normal completion.
- `updateById` is modelled as replacing the whole row. MyBatis skips null fields, and
  `@Transactional` and the `Result` wrapping are plumbing.
- `queryById` is not modelled. It only picks the logical-expiry strategy and wraps a null as a
  failure `Result`.
- A null id passed to a query (which would build the key `"…null"`) is not modelled. Query ids
  are integers.
- The `RedisConstants` values are not part of this model. They are a `Config` record with
  positive TTLs, and properties that need distinct cache and lock prefixes ask for it.
- The Spring integration test depends on a live Redis and on an id generator that is not part
  of this model.

=== FILE: answers.dfy ===
/** What a cache query hands back, and what it did on the way. */
module Answers {
  import opened Wrappers
  import opened KvStore
  import opened Serialization

  /**
    The value a query returns: an entity, Java `null`, the exception Hutool
    throws on a cached value it cannot parse, or (mutex strategy only) a
    retry schedule that ran out while the lock was still contended.
  */
  datatype Answer<R> = Found(value: R) | NotFound | Malformed | Exhausted

  /**
    One query: its answer, the store afterwards, how many times it invoked
    the loader, and whether it handed a rebuild task to the executor.
  */
  datatype Step<R> = Step(answer: Answer<R>, store: Store, loads: nat, rebuild: bool)

  /** A reference that may be null, as an answer. */
  function FromNullable<R>(o: Option<R>): Answer<R>
  {
    match o
    case Some(v) => Found(v)
    case None => NotFound
  }

  /**
    The answer for a cached string: a non-blank string is parsed as the
    entity, a blank one (the null sentinel) means "known absent".
  */
  function ReadCached<R>(json: Json<R>, cached: string): Answer<R>
  {
    if !IsBlank(cached) then
      match json.toBean(cached)
      case Some(v) => Found(v)
      case None => Malformed
    else
      NotFound
  }

  /** Whatever the codec wrote for `x` reads back as `x`. */
  lemma ReadCachedRoundTrip<R(!new)>(json: Json<R>, x: R)
    requires RoundTrips(json)
    ensures ReadCached(json, json.toJson(x)) == Found(x)
  {
  }

  /** What a logical-expiry read finds under a key: nothing usable, an unparsable value, or an envelope. */
  datatype EnvelopeLookup<R> = NoEnvelope | Unreadable | Readable(envelope: Envelope<R>)

  /**
    A missing key and a blank value both count as no envelope; anything
    else is parsed as an envelope.
  */
  function ReadEnvelope<R>(json: Json<R>, store: Store, key: string): EnvelopeLookup<R>
  {
    match Get(store, key)
    case None => NoEnvelope
    case Some(cached) =>
      if IsBlank(cached) then NoEnvelope
      else
        match json.envelopeToBean(cached)
        case None => Unreadable
        case Some(e) => Readable(e)
  }

  /** An envelope the codec wrote under `key` reads back as that envelope, whatever its expiry. */
  lemma ReadEnvelopeRoundTrip<R(!new)>(json: Json<R>, store: Store, key: string, e: Envelope<R>, ttl: Ttl)
    requires RoundTrips(json)
    ensures ReadEnvelope(json, Set(store, key, json.envelopeToJson(e), ttl), key) == Readable(e)
  {
  }
}

=== FILE: cache_client.dfy ===
/**
  The generic cache client (com.hmdp.utils.CacheClient): a write path and
  two read strategies, parameterised by key prefix, id rendering, payload
  codec, loader and expiry. The loader is the caller's `dbFallBack`; the
  id is rendered by `show`, standing for Java's `toString`.
*/
module CacheClient {
  import opened Wrappers
  import opened KvStore
  import opened Serialization
  import opened Answers
  import opened RedisConstants
  import opened Lock

  /** `set`: the value's JSON under `key`, expiring after `time` of `unit`. */
  function Set<R(!new)>(store: Store, json: Json<R>, key: string, value: R, time: int, unit: TimeUnit): (r: Store)
    ensures key in r && r[key].ttl == Timed(time, unit)
    ensures RoundTrips(json) ==> ReadCached(json, r[key].value) == Found(value)
    ensures UnchangedExcept(store, r, {key})
  {
    KvStore.Set(store, key, json.toJson(value), Timed(time, unit))
  }

  /**
    `setWithLogicalExpire`: the value wrapped in an envelope whose logical
    expiry lies `unit.toSeconds(time)` seconds after `now`, truncated to
    whole seconds. The entry is also given a physical expiry of `time` of
    `unit` itself, which exceeds the logical lifetime only by the fraction
    of a second that truncation drops.
  */
  function SetWithLogicalExpire<R(!new)>(store: Store, json: Json<R>, key: string, value: Option<R>,
                                   time: int, unit: TimeUnit, now: int): (r: Store)
    ensures key in r && r[key].ttl == Timed(time, unit)
    ensures RoundTrips(json) ==>
      && !IsBlank(r[key].value)
      && json.envelopeToBean(r[key].value) == Some(Envelope(value, now + ToSeconds(time, unit)))
    ensures UnchangedExcept(store, r, {key})
  {
    KvStore.Set(store, key, json.envelopeToJson(Wrap(value, ToSeconds(time, unit), now)), Timed(time, unit))
  }

  /** The lock guarding rebuilds of `id`: always in the shop lock namespace. */
  function RebuildLockKey<ID>(cfg: Config, id: ID, show: ID -> string): string
  {
    Key(cfg.lockShopKey, show(id))
  }

  /**
    `queryWithPassThrough`: a cached non-blank string is parsed and returned;
    a cached blank string (the null sentinel) means "absent"; only when the
    key is missing is the loader called, and its answer is cached: the
    sentinel for CACHE_NULL_TTL minutes when it found nothing, otherwise the
    entity's JSON for the caller's expiry.
  */
  function QueryWithPassThrough<ID, R(!new)>(cfg: Config, json: Json<R>, store: Store, keyPrefix: string,
                                       id: ID, show: ID -> string, dbFallBack: ID -> Option<R>,
                                       time: int, unit: TimeUnit): (r: Step<R>)
    ensures var key := Key(keyPrefix, show(id));
      && !r.rebuild
      && (r.loads == 1 <==> key !in store) && r.loads <= 1
      && key in r.store
      && UnchangedExcept(store, r.store, {key})
      && (key in store ==> r.store == store && r.answer == ReadCached(json, store[key].value))
      && (key !in store && dbFallBack(id).None? ==>
            r.answer == NotFound && r.store[key] == NullSentinel(cfg))
      && (key !in store && dbFallBack(id).Some? ==>
            r.answer == Found(dbFallBack(id).value) && r.store[key].ttl == Timed(time, unit)
            && (RoundTrips(json) ==> ReadCached(json, r.store[key].value) == r.answer))
  {
    var key := Key(keyPrefix, show(id));
    match Get(store, key)
    case Some(cached) =>
      Step(ReadCached(json, cached), store, 0, false)
    case None =>
      match dbFallBack(id)
      case None =>
        var sentinel := NullSentinel(cfg);
        Step(NotFound, KvStore.Set(store, key, sentinel.value, sentinel.ttl), 1, false)
      case Some(v) =>
        Step(Found(v), Set(store, json, key, v, time, unit), 1, false)
  }

  /**
    `queeryWithLogicalExpire` on the calling thread. A blank or missing key
    answers null at once (the cache is assumed pre-warmed). Otherwise the
    envelope's payload is returned whether fresh or stale; when stale, the
    rebuild lock is attempted and a rebuild is handed off iff it was taken.
    The lock is `LOCK_SHOP_KEY + id` whatever `keyPrefix` is.
  */
  function QueryWithLogicalExpire<ID, R(!new)>(cfg: Config, json: Json<R>, store: Store, keyPrefix: string,
                                         id: ID, show: ID -> string, now: int): (r: Step<R>)
    ensures r.loads == 0
    ensures UnchangedExcept(store, r.store, {RebuildLockKey(cfg, id, show)})
    ensures var found := ReadEnvelope(json, store, Key(keyPrefix, show(id)));
      && (found.NoEnvelope? ==> r == Step(NotFound, store, 0, false))
      && (found.Unreadable? ==> r == Step(Malformed, store, 0, false))
      && (found.Readable? ==> r.answer == FromNullable(found.envelope.data))
      && (found.Readable? && !IsStale(found.envelope, now) ==> r.store == store && !r.rebuild)
      && (found.Readable? && IsStale(found.envelope, now) ==> (r.rebuild <==> RebuildLockKey(cfg, id, show) !in store))
    ensures r.rebuild ==> TryLock(store, RebuildLockKey(cfg, id, show)) == (true, r.store)
    ensures !r.rebuild ==> r.store == store
  {
    match ReadEnvelope(json, store, Key(keyPrefix, show(id)))
    case NoEnvelope => Step(NotFound, store, 0, false)
    case Unreadable => Step(Malformed, store, 0, false)
    case Readable(e) =>
      var answer := FromNullable(e.data);
      if !IsStale(e, now) then Step(answer, store, 0, false)
      else
        var (locked, s) := TryLock(store, RebuildLockKey(cfg, id, show));
        Step(answer, s, 0, locked)
  }

  /**
    The rebuild handed to the executor on a stale read, run at its own `now`:
    load the entity, write it back with `setWithLogicalExpire`, and release
    the lock in the `finally`.
  */
  function RebuildTask<ID, R(!new)>(cfg: Config, json: Json<R>, store: Store, keyPrefix: string,
                              id: ID, show: ID -> string, dbFallBack: ID -> Option<R>,
                              time: int, unit: TimeUnit, now: int): (r: Store)
    ensures var key := Key(keyPrefix, show(id));
            var lockKey := RebuildLockKey(cfg, id, show);
      && lockKey !in r
      && UnchangedExcept(store, r, {key, lockKey})
      && (key != lockKey ==>
            && key in r && r[key].ttl == Timed(time, unit)
            && (RoundTrips(json) ==>
                  json.envelopeToBean(r[key].value) == Some(Envelope(dbFallBack(id), now + ToSeconds(time, unit)))))
  {
    var key := Key(keyPrefix, show(id));
    UnLock(SetWithLogicalExpire(store, json, key, dbFallBack(id), time, unit, now), RebuildLockKey(cfg, id, show))
  }
}

=== FILE: cache_client_properties.dfy ===
/** Properties of the generic cache client that relate several calls. */
module CacheClientProperties {
  import opened Wrappers
  import opened KvStore
  import opened Serialization
  import opened Answers
  import opened RedisConstants
  import opened Lock
  import opened CacheClient

  /**
    Null-sentinel idempotence, and more: whatever the first pass-through
    query found, an immediate second one for the same id never calls the
    loader, changes nothing, and gives the same answer.
  */
  lemma PassThroughSecondCallHitsCache<ID, R(!new)>(cfg: Config, json: Json<R>, store: Store, keyPrefix: string,
                                                    id: ID, show: ID -> string, dbFallBack: ID -> Option<R>,
                                                    time: int, unit: TimeUnit)
    requires RoundTrips(json)
    ensures var first := QueryWithPassThrough(cfg, json, store, keyPrefix, id, show, dbFallBack, time, unit);
            var second := QueryWithPassThrough(cfg, json, first.store, keyPrefix, id, show, dbFallBack, time, unit);
      && first.loads + second.loads <= 1
      && second.loads == 0
      && second.store == first.store
      && second.answer == first.answer
  {
  }

  /**
    For an id the loader reports absent, a true miss calls the loader once
    and caches the sentinel; the next query answers null without a call.
  */
  lemma NullSentinelStopsRepeatedLoads<ID, R(!new)>(cfg: Config, json: Json<R>, store: Store, keyPrefix: string,
                                              id: ID, show: ID -> string, dbFallBack: ID -> Option<R>,
                                              time: int, unit: TimeUnit)
    requires Key(keyPrefix, show(id)) !in store
    requires dbFallBack(id).None?
    ensures var first := QueryWithPassThrough(cfg, json, store, keyPrefix, id, show, dbFallBack, time, unit);
            var second := QueryWithPassThrough(cfg, json, first.store, keyPrefix, id, show, dbFallBack, time, unit);
      && first.answer == NotFound && first.loads == 1
      && second.answer == NotFound && second.loads == 0
      && second.store == first.store
  {
  }

  /**
    Round trip: a value written with `setWithLogicalExpire` for at least one
    second is read back fresh, without a lock or a rebuild, at any instant
    before its logical expiry.
  */
  lemma LogicalExpireRoundTrip<ID, R(!new)>(cfg: Config, json: Json<R>, store: Store, keyPrefix: string,
                                            id: ID, show: ID -> string, value: R,
                                            time: int, unit: TimeUnit, now: int, at: int)
    requires RoundTrips(json)
    requires ToSeconds(time, unit) > 0
    requires now <= at < now + ToSeconds(time, unit)
    ensures var written := SetWithLogicalExpire(store, json, Key(keyPrefix, show(id)), Some(value), time, unit, now);
            QueryWithLogicalExpire(cfg, json, written, keyPrefix, id, show, at) == Step(Found(value), written, 0, false)
  {
  }

  /**
    A positive duration shorter than one second converts to zero seconds,
    so the envelope is stale the moment it is written: the next read at the
    same instant already contends for the rebuild lock.
  */
  lemma SubSecondExpiryIsStaleAtOnce<ID, R(!new)>(cfg: Config, json: Json<R>, store: Store, keyPrefix: string,
                                                  id: ID, show: ID -> string, value: R,
                                                  time: int, unit: TimeUnit, now: int)
    requires RoundTrips(json)
    requires 0 < time < UnitsInOneSecond(unit)
    ensures var written := SetWithLogicalExpire(store, json, Key(keyPrefix, show(id)), Some(value), time, unit, now);
            var q := QueryWithLogicalExpire(cfg, json, written, keyPrefix, id, show, now);
      && q.answer == Found(value)
      && (q.rebuild <==> RebuildLockKey(cfg, id, show) !in written)
  {
  }

  /**
    The rebuild lock does not depend on the key prefix: once a stale read
    under one prefix holds it, a stale read under any other prefix for the
    same id cannot schedule its own rebuild.
  */
  lemma RebuildLockSharedAcrossPrefixes<ID, R(!new)>(cfg: Config, json: Json<R>, store: Store, p: string, q: string,
                                               id: ID, show: ID -> string, now: int)
    requires QueryWithLogicalExpire(cfg, json, store, p, id, show, now).rebuild
    ensures var s := QueryWithLogicalExpire(cfg, json, store, p, id, show, now).store;
            !QueryWithLogicalExpire(cfg, json, s, q, id, show, now).rebuild
  {
  }

  /**
    A stale read that takes the lock, followed by its rebuild task, leaves
    the lock free and a fresh envelope holding the loader's current answer,
    which the next read returns without contending for the lock.
  */
  lemma StaleReadRebuildRefreshes<ID, R(!new)>(cfg: Config, json: Json<R>, store: Store, keyPrefix: string,
                                               id: ID, show: ID -> string, dbFallBack: ID -> Option<R>,
                                               time: int, unit: TimeUnit, now: int, later: int)
    requires RoundTrips(json)
    requires keyPrefix != cfg.lockShopKey
    requires ToSeconds(time, unit) > 0
    requires QueryWithLogicalExpire(cfg, json, store, keyPrefix, id, show, now).rebuild
    ensures var q := QueryWithLogicalExpire(cfg, json, store, keyPrefix, id, show, now);
            var rebuilt := RebuildTask(cfg, json, q.store, keyPrefix, id, show, dbFallBack, time, unit, later);
      && RebuildLockKey(cfg, id, show) !in rebuilt
      && QueryWithLogicalExpire(cfg, json, rebuilt, keyPrefix, id, show, later)
         == Step(FromNullable(dbFallBack(id)), rebuilt, 0, false)
  {
  }

  /** `n` pass-through queries for the same id, one after another: their answers, total loader calls and final store. */
  function PassThroughRun<ID, R(!new)>(cfg: Config, json: Json<R>, store: Store, keyPrefix: string,
                                       id: ID, show: ID -> string, dbFallBack: ID -> Option<R>,
                                       time: int, unit: TimeUnit, n: nat): (seq<Answer<R>>, nat, Store)
    decreases n
  {
    if n == 0 then ([], 0, store)
    else
      var q := QueryWithPassThrough(cfg, json, store, keyPrefix, id, show, dbFallBack, time, unit);
      var rest := PassThroughRun(cfg, json, q.store, keyPrefix, id, show, dbFallBack, time, unit, n - 1);
      ([q.answer] + rest.0, q.loads + rest.1, rest.2)
  }

  /** Once the key is cached (value or sentinel), any number of queries answer from it and change nothing. */
  lemma {:induction false} WarmRunIsSilent<ID, R(!new)>(cfg: Config, json: Json<R>, store: Store, keyPrefix: string,
                                                        id: ID, show: ID -> string, dbFallBack: ID -> Option<R>,
                                                        time: int, unit: TimeUnit, n: nat)
    requires Key(keyPrefix, show(id)) in store
    ensures var run := PassThroughRun(cfg, json, store, keyPrefix, id, show, dbFallBack, time, unit, n);
      && |run.0| == n
      && (forall i :: 0 <= i < n ==> run.0[i] == ReadCached(json, store[Key(keyPrefix, show(id))].value))
      && run.1 == 0
      && run.2 == store
    decreases n
  {
    if n > 0 {
      WarmRunIsSilent(cfg, json, store, keyPrefix, id, show, dbFallBack, time, unit, n - 1);
    }
  }

  /**
    Repeated pass-through queries for one id call the loader at most once
    in all (exactly once when the key started out missing) and all give the
    same answer, whether that is the entity or null.
  */
  lemma {:induction false} RepeatedPassThroughLoadsAtMostOnce<ID, R(!new)>(
    cfg: Config, json: Json<R>, store: Store, keyPrefix: string,
    id: ID, show: ID -> string, dbFallBack: ID -> Option<R>, time: int, unit: TimeUnit, n: nat)
    requires RoundTrips(json)
    ensures var run := PassThroughRun(cfg, json, store, keyPrefix, id, show, dbFallBack, time, unit, n);
      && |run.0| == n
      && run.1 == (if n > 0 && Key(keyPrefix, show(id)) !in store then 1 else 0)
      && (forall i :: 0 <= i < n ==> run.0[i] == run.0[0])
  {
    if n > 0 {
      var q := QueryWithPassThrough(cfg, json, store, keyPrefix, id, show, dbFallBack, time, unit);
      var key := Key(keyPrefix, show(id));
      WarmRunIsSilent(cfg, json, q.store, keyPrefix, id, show, dbFallBack, time, unit, n - 1);
      PassThroughSecondCallHitsCache(cfg, json, store, keyPrefix, id, show, dbFallBack, time, unit);
      assert ReadCached(json, q.store[key].value) == q.answer;
    }
  }
}

=== FILE: kv_store.dfy ===
/**
  The key-value store the cache sits on (a Redis instance reached through
  Spring's StringRedisTemplate), as an immutable map from key to entry.
  Every operation is a single-key GET, SET, SET-IF-ABSENT or DELETE.
  Time-to-live is recorded with each entry exactly as the caller passed it;
  eviction by the store itself is not modelled.
*/
module KvStore {
  import opened Wrappers

  /** java.util.concurrent.TimeUnit. */
  datatype TimeUnit = Nanoseconds | Microseconds | Milliseconds | Seconds | Minutes | Hours | Days

  const LongMin: int := -0x8000_0000_0000_0000
  const LongMax: int := 0x7FFF_FFFF_FFFF_FFFF

  /** Nanoseconds in one unit. */
  function Nanos(unit: TimeUnit): (n: nat)
    ensures n > 0
  {
    match unit
    case Nanoseconds => 1
    case Microseconds => 1_000
    case Milliseconds => 1_000_000
    case Seconds => 1_000_000_000
    case Minutes => 60_000_000_000
    case Hours => 3_600_000_000_000
    case Days => 86_400_000_000_000
  }

  /** The smallest duration in `unit` that is at least one second long. */
  function UnitsInOneSecond(unit: TimeUnit): (n: nat)
    ensures n > 0 && n * Nanos(unit) >= Nanos(Seconds)
    ensures n > 1 ==> (n - 1) * Nanos(unit) < Nanos(Seconds)
  {
    match unit
    case Nanoseconds => 1_000_000_000
    case Microseconds => 1_000_000
    case Milliseconds => 1_000
    case _ => 1
  }

  /** Clamp to the range of a Java long, as TimeUnit's conversions do. */
  function Saturate(x: int): (r: int)
    ensures LongMin <= r <= LongMax
    ensures LongMin <= x <= LongMax ==> r == x
    ensures (x > 0 ==> r > 0) && (x <= 0 ==> r <= 0)
  {
    if x > LongMax then LongMax else if x < LongMin then LongMin else x
  }

  /** Java's integer division, which truncates toward zero. */
  function TruncDiv(a: int, b: int): (q: int)
    requires b > 0
    ensures a >= 0 ==> q == a / b
    ensures a < 0 ==> q == -((-a) / b)
  {
    if a >= 0 then a / b else -((-a) / b)
  }

  /**
    `unit.toSeconds(d)`: finer units divide (truncating toward zero),
    coarser units multiply (saturating at the bounds of a long).
  */
  function ToSeconds(d: int, unit: TimeUnit): (s: int)
    ensures s > 0 <==> d >= UnitsInOneSecond(unit)
    ensures s < 0 <==> d <= -(UnitsInOneSecond(unit) as int)
  {
    match unit
    case Nanoseconds => TruncDiv(d, 1_000_000_000)
    case Microseconds => TruncDiv(d, 1_000_000)
    case Milliseconds => TruncDiv(d, 1_000)
    case Seconds => d
    case Minutes => Saturate(d * 60)
    case Hours => Saturate(d * 3_600)
    case Days => Saturate(d * 86_400)
  }

  /**
    The value of `unit.toSeconds(d)` for a long `d`, measured in nanoseconds:
    the whole seconds in the duration, rounded toward zero, as long as they
    fit in a long; the bound of a long beyond that.
  */
  lemma ToSecondsValue(d: int, unit: TimeUnit)
    requires LongMin <= d <= LongMax
    ensures var s, n, g := ToSeconds(d, unit), d * Nanos(unit), Nanos(Seconds);
      && LongMin <= s <= LongMax
      && (0 <= n < (LongMax + 1) * g ==> s * g <= n < (s + 1) * g)
      && (n < 0 && n > (LongMin - 1) * g ==> (s - 1) * g < n <= s * g)
      && (n > LongMax * g ==> s == LongMax)
      && (n < LongMin * g ==> s == LongMin)
  {
    var s := ToSeconds(d, unit);
    match unit
    case Nanoseconds =>
      if d >= 0 { assert s * 1_000_000_000 <= d < (s + 1) * 1_000_000_000; }
      else { assert (s - 1) * 1_000_000_000 < d <= s * 1_000_000_000; }
    case Microseconds =>
      if d >= 0 { assert s * 1_000_000 <= d < (s + 1) * 1_000_000; }
      else { assert (s - 1) * 1_000_000 < d <= s * 1_000_000; }
    case Milliseconds =>
      if d >= 0 { assert s * 1_000 <= d < (s + 1) * 1_000; }
      else { assert (s - 1) * 1_000 < d <= s * 1_000; }
    case Seconds =>
    case Minutes =>
    case Hours =>
    case Days =>
  }

  /** The expiry recorded with an entry: none, or `amount` of `unit`. */
  datatype Ttl = Persistent | Timed(amount: int, unit: TimeUnit)

  datatype Entry = Entry(value: string, ttl: Ttl)

  type Store = map<string, Entry>

  /** Cache keys are the namespace prefix followed by the rendered id. */
  function Key(prefix: string, idText: string): (k: string)
    ensures |k| == |prefix| + |idText|
    ensures k[..|prefix|] == prefix && k[|prefix|..] == idText
  {
    prefix + idText
  }

  /** Every key outside `keys` holds the same entry (or stays absent) in both stores. */
  ghost predicate UnchangedExcept(before: Store, after: Store, keys: set<string>)
  {
    forall k :: k !in keys ==> (k in before <==> k in after) && (k in before ==> before[k] == after[k])
  }

  /** GET: the value stored under `key`, or nothing (Java null). */
  function Get(store: Store, key: string): (r: Option<string>)
    ensures r.Some? <==> key in store
    ensures r.Some? ==> r.value == store[key].value
  {
    if key in store then Some(store[key].value) else None
  }

  /** SET with an expiry: overwrites whatever `key` held. */
  function Set(store: Store, key: string, value: string, ttl: Ttl): (r: Store)
    ensures key in r && r[key] == Entry(value, ttl)
    ensures UnchangedExcept(store, r, {key})
    ensures r.Keys == store.Keys + {key}
  {
    store[key := Entry(value, ttl)]
  }

  /** SET NX: writes only when `key` is absent and reports whether it wrote. */
  function SetIfAbsent(store: Store, key: string, value: string, ttl: Ttl): (r: (bool, Store))
    ensures r.0 <==> key !in store
    ensures r.0 ==> r.1 == Set(store, key, value, ttl)
    ensures !r.0 ==> r.1 == store
  {
    if key in store then (false, store) else (true, store[key := Entry(value, ttl)])
  }

  /** DEL: removes `key`; a no-op when it is absent. */
  function Delete(store: Store, key: string): (r: Store)
    ensures key !in r
    ensures UnchangedExcept(store, r, {key})
    ensures r.Keys == store.Keys - {key}
  {
    store - {key}
  }

  /**
    Hutool's blank characters: Java whitespace, Unicode space separators,
    and the zero-width no-break space, left-to-right embedding and NUL.
  */
  predicate IsBlankChar(c: char)
  {
    || c == ' ' || c == '\t' || c == '\n' || c == '\r' || c == '\U{0B}' || c == '\U{0C}'
    || ('\U{1C}' <= c <= '\U{1F}') || c == '\0'
    || c == '\U{A0}' || c == '\U{1680}' || ('\U{2000}' <= c <= '\U{200A}')
    || c == '\U{2028}' || c == '\U{2029}' || c == '\U{202F}' || c == '\U{205F}' || c == '\U{3000}'
    || c == '\U{FEFF}' || c == '\U{202A}'
  }

  /** StrUtil.isBlank of a non-null string: empty or made of blank characters only. */
  predicate IsBlank(s: string)
  {
    forall i :: 0 <= i < |s| ==> IsBlankChar(s[i])
  }
}

=== FILE: lock.dfy ===
/**
  The mutual-exclusion primitive both cache classes carry a private copy
  of: SET NX of "1" with a ten-second expiry, released by a plain DEL.
*/
module Lock {
  import opened KvStore

  const LockValue: string := "1"
  const LockTtl: Ttl := Timed(10, Seconds)

  /** `tryLock`: the caller holds the lock iff this call created the key. */
  function TryLock(store: Store, key: string): (r: (bool, Store))
    ensures r.0 <==> key !in store
    ensures r.0 ==> key in r.1 && r.1[key] == Entry(LockValue, LockTtl) && UnchangedExcept(store, r.1, {key})
    ensures !r.0 ==> r.1 == store
  {
    SetIfAbsent(store, key, LockValue, LockTtl)
  }

  /** `unLock`: deletes the key whoever created it. */
  function UnLock(store: Store, key: string): (r: Store)
    ensures key !in r
    ensures UnchangedExcept(store, r, {key})
  {
    Delete(store, key)
  }

  /** Once one caller holds the lock, every further attempt fails and changes nothing. */
  lemma TryLockExclusive(store: Store, key: string)
    ensures var first := TryLock(store, key);
            var second := TryLock(first.1, key);
            !second.0 && second.1 == first.1
  {
  }

  /** Acquiring a free lock and releasing it leaves the store as it was. */
  lemma TryLockThenUnLock(store: Store, key: string)
    requires key !in store
    ensures UnLock(TryLock(store, key).1, key) == store
  {
  }

  /** Release is unconditional: it also removes a lock held by someone else. */
  lemma UnLockIgnoresOwner(store: Store, key: string)
    requires key in store
    ensures !TryLock(store, key).0
    ensures key !in UnLock(store, key)
  {
  }
}

=== FILE: redis_constants.dfy ===
/**
  The key prefixes and expiry times of RedisConstants. Their values are not
  part of this model, so they travel as a configuration record.
*/
module RedisConstants {
  import opened KvStore

  type Positive = n: int | n > 0 witness 1

  datatype Config = Config(
    cacheShopKey: string,   // CACHE_SHOP_KEY
    lockShopKey: string,    // LOCK_SHOP_KEY
    cacheNullTtl: Positive, // CACHE_NULL_TTL, in minutes
    cacheShopTtl: Positive) // CACHE_SHOP_TTL, in minutes

  /** The cache and lock namespaces are different prefixes. */
  predicate ValidConfig(cfg: Config)
  {
    cfg.cacheShopKey != cfg.lockShopKey
  }

  /** The null sentinel: an empty string kept for CACHE_NULL_TTL minutes. */
  function NullSentinel(cfg: Config): (e: Entry)
    ensures IsBlank(e.value)
  {
    Entry("", Timed(cfg.cacheNullTtl, Minutes))
  }
}

=== FILE: serialization.dfy ===
/**
  JSON serialization (Hutool's JSONUtil), kept abstract: the caller supplies
  the encoders and decoders, and the lemmas that need a faithful codec ask
  for it with `RoundTrips`. A decoder answers `None` where Hutool would throw.
*/
module Serialization {
  import opened Wrappers
  import opened KvStore

  /**
    The logical-expiry wrapper: a payload (possibly null) and the instant,
    in seconds, after which it counts as stale. The generic client writes
    it as `RedisData` and reads it back as `RedisDate`; the shop service
    uses `RedisDate` for both. Both classes are taken here to be one class
    with the fields `data` and `expireTime`.
  */
  datatype Envelope<R> = Envelope(data: Option<R>, expireTime: int)

  /** `LocalDateTime.now().plusSeconds(seconds)` wrapped around `data`. */
  function Wrap<R>(data: Option<R>, seconds: int, now: int): (e: Envelope<R>)
    ensures e.data == data
    ensures seconds > 0 <==> e.expireTime > now
  {
    Envelope(data, now + seconds)
  }

  /** `!expireTime.isAfter(now)`: the envelope is due for a rebuild. */
  predicate IsStale<R>(e: Envelope<R>, now: int)
  {
    e.expireTime <= now
  }

  /** An envelope wrapped for `seconds` is fresh until exactly `seconds` have elapsed. */
  lemma WrapStaleAfterTtl<R>(data: Option<R>, seconds: int, now: int, later: int)
    requires seconds > 0 && now <= later
    ensures !IsStale(Wrap(data, seconds, now), now)
    ensures IsStale(Wrap(data, seconds, now), later) <==> later >= now + seconds
  {
  }

  /** The JSON conversions one call site uses, for its payload type `R` and for envelopes of it. */
  datatype Json<!R> = Json(
    toJson: R -> string,
    toBean: string -> Option<R>,
    envelopeToJson: Envelope<R> -> string,
    envelopeToBean: string -> Option<Envelope<R>>)

  /**
    The codec reads back what it writes, and what it writes is never blank
    (a JSON object always has its braces).
  */
  ghost predicate RoundTrips<R(!new)>(json: Json<R>)
  {
    && (forall x :: json.toBean(json.toJson(x)) == Some(x) && !IsBlank(json.toJson(x)))
    && (forall e :: json.envelopeToBean(json.envelopeToJson(e)) == Some(e) && !IsBlank(json.envelopeToJson(e)))
  }
}

=== FILE: shop_service.dfy ===
/**
  The shop service (com.hmdp.service.impl.ShopServiceImpl): shop-specific
  copies of the pass-through and logical-expiry reads, the mutex-guarded
  rebuild that the generic client lacks, the envelope writer used to warm
  the cache, and the invalidating update. The shop table is a map from id
  to row; `getById` looks a row up and `updateById` replaces it.
*/
module ShopService {
  import opened Wrappers
  import opened KvStore
  import opened Serialization
  import opened Answers
  import opened RedisConstants
  import opened Lock

  /** A shop row: its id (null for a shop not yet saved) and its other columns. */
  datatype Shop = Shop(id: Option<int>, columns: map<string, string>)

  type Db = map<int, Shop>

  /** Logical lifetime, in seconds, of the envelope a background rebuild writes. */
  const RebuildExpireSeconds: int := 20

  /** `getById`. */
  function GetById(db: Db, id: int): (r: Option<Shop>)
    ensures r.Some? <==> id in db
    ensures r.Some? ==> r.value == db[id]
  {
    if id in db then Some(db[id]) else None
  }

  /** `updateById`: replaces the row with the shop's id, if there is one. */
  function UpdateById(db: Db, shop: Shop): (r: Db)
    requires shop.id.Some?
    ensures r.Keys == db.Keys
    ensures shop.id.value in db ==> r[shop.id.value] == shop
    ensures forall i :: i in db && i != shop.id.value ==> r[i] == db[i]
  {
    var id := shop.id.value;
    if id in db then db[id := shop] else db
  }

  function Digit(d: nat): (c: char)
    requires d < 10
  {
    "0123456789"[d]
  }

  function NatText(n: nat): string
  {
    if n < 10 then [Digit(n)] else NatText(n / 10) + [Digit(n % 10)]
  }

  /** Java's decimal rendering of a long, as string concatenation uses it. */
  function LongText(n: int): string
  {
    if n < 0 then "-" + NatText(-n) else NatText(n)
  }

  function ShopKey(cfg: Config, id: int): string
  {
    Key(cfg.cacheShopKey, LongText(id))
  }

  function ShopLockKey(cfg: Config, id: int): string
  {
    Key(cfg.lockShopKey, LongText(id))
  }

  /** The cached JSON of a shop, kept for CACHE_SHOP_TTL minutes. */
  function ShopEntry(cfg: Config, json: Json<Shop>, shop: Shop): Entry
  {
    Entry(json.toJson(shop), Timed(cfg.cacheShopTtl, Minutes))
  }

  /**
    `queeryWithPassThrough`: as the generic client's strategy, with the
    shop prefix, the shop table as loader and CACHE_SHOP_TTL minutes.
  */
  function QueryWithPassThrough(cfg: Config, json: Json<Shop>, db: Db, store: Store, id: int): (r: Step<Shop>)
    ensures var key := ShopKey(cfg, id);
      && !r.rebuild
      && (r.loads == 1 <==> key !in store) && r.loads <= 1
      && key in r.store
      && UnchangedExcept(store, r.store, {key})
      && (key in store ==> r.store == store && r.answer == ReadCached(json, store[key].value))
      && (key !in store ==> r.answer == FromNullable(GetById(db, id)))
      && (key !in store && id !in db ==> r.store[key] == NullSentinel(cfg))
      && (key !in store && id in db ==> r.store[key] == ShopEntry(cfg, json, db[id]))
  {
    var key := ShopKey(cfg, id);
    match Get(store, key)
    case Some(cached) =>
      Step(ReadCached(json, cached), store, 0, false)
    case None =>
      match GetById(db, id)
      case None =>
        var sentinel := NullSentinel(cfg);
        Step(NotFound, Set(store, key, sentinel.value, sentinel.ttl), 1, false)
      case Some(shop) =>
        var e := ShopEntry(cfg, json, shop);
        Step(Found(shop), Set(store, key, e.value, e.ttl), 1, false)
  }

  /**
    The part of `queeryWithMutex` after the cache missed: try the lock and,
    holding it, read the table, cache the shop (or the null sentinel) and
    release the lock in the `finally`. Nothing is done when the lock is held
    by someone else.
  */
  function LoadUnderLock(cfg: Config, json: Json<Shop>, db: Db, store: Store, id: int): (r: Option<Step<Shop>>)
    ensures var key := ShopKey(cfg, id);
            var lockKey := ShopLockKey(cfg, id);
      && (r.Some? <==> lockKey !in store)
      && (r.Some? ==>
            && r.value.loads == 1 && !r.value.rebuild
            && r.value.answer == FromNullable(GetById(db, id))
            && lockKey !in r.value.store
            && UnchangedExcept(store, r.value.store, {key, lockKey})
            && (ValidConfig(cfg) ==>
                  key in r.value.store
                  && r.value.store[key] == (if id in db then ShopEntry(cfg, json, db[id]) else NullSentinel(cfg))))
  {
    var key := ShopKey(cfg, id);
    var lockKey := ShopLockKey(cfg, id);
    var (locked, held) := TryLock(store, lockKey);
    if !locked then None
    else
      match GetById(db, id)
      case None =>
        var sentinel := NullSentinel(cfg);
        Some(Step(NotFound, UnLock(Set(held, key, sentinel.value, sentinel.ttl), lockKey), 1, false))
      case Some(shop) =>
        var e := ShopEntry(cfg, json, shop);
        Some(Step(Found(shop), UnLock(Set(held, key, e.value, e.ttl), lockKey), 1, false))
  }

  /**
    `queeryWithMutex`. Hits and the null sentinel are answered from the
    cache as in pass-through. On a miss the caller tries the lock: holding
    it, it loads the shop, caches the shop or the sentinel and returns;
    failing, it sleeps and retries the whole query. `waits` lists the store
    as the caller finds it after each sleep, other clients having acted in
    the meantime; when the list runs out the caller gives up (`Exhausted`).
    The `finally` that releases the lock runs on both miss branches,
    including after a retry by a caller that never held the lock.
  */
  function QueryWithMutex(cfg: Config, json: Json<Shop>, db: Db, store: Store, id: int,
                          waits: seq<Store>): (r: Step<Shop>)
    decreases |waits|
    ensures var key := ShopKey(cfg, id);
            var lockKey := ShopLockKey(cfg, id);
      && !r.rebuild
      && r.loads <= 1
      && (key in store ==> r == Step(ReadCached(json, store[key].value), store, 0, false))
      && (key !in store ==> lockKey !in r.store)
      // only the shop key and its lock differ from the initial store or some store found after a wait
      && (|| UnchangedExcept(store, r.store, {key, lockKey})
          || exists found: Store :: found in waits && UnchangedExcept(found, r.store, {key, lockKey}))
      // the table is read only by an attempt that found the key missing and the lock free
      && (r.loads == 1 ==>
            || (key !in store && lockKey !in store)
            || exists found: Store :: found in waits && key !in found && lockKey !in found)
      && (r.loads == 1 ==> r.answer == FromNullable(GetById(db, id)))
      && (r.loads == 1 && ValidConfig(cfg) ==>
            key in r.store && r.store[key] == (if id in db then ShopEntry(cfg, json, db[id]) else NullSentinel(cfg)))
      // without a read, the answer is a cached one some attempt found, or the give-up
      && (r.loads == 0 && key !in store ==>
            || r.answer == Exhausted
            || exists found: Store :: found in waits && key in found && r.answer == ReadCached(json, found[key].value))
  {
    var key := ShopKey(cfg, id);
    var lockKey := ShopLockKey(cfg, id);
    match Get(store, key)
    case Some(cached) =>
      Step(ReadCached(json, cached), store, 0, false)
    case None =>
      match LoadUnderLock(cfg, json, db, store, id)
      case Some(loaded) => loaded
      case None =>
        if |waits| == 0 then
          Step(Exhausted, UnLock(store, lockKey), 0, false)
        else
          var retry := QueryWithMutex(cfg, json, db, waits[0], id, waits[1..]);
          var done := UnLock(retry.store, lockKey);
          assert waits[0] in waits && forall found: Store :: found in waits[1..] ==> found in waits;
          assert UnchangedExcept(retry.store, done, {key, lockKey});
          assert forall found: Store :: UnchangedExcept(found, retry.store, {key, lockKey}) ==> UnchangedExcept(found, done, {key, lockKey});
          retry.(store := done)
  }

  /**
    `queeryWithLogicalExpire` on the calling thread: as the generic
    client's strategy with the shop prefix and the shop lock.
  */
  function QueryWithLogicalExpire(cfg: Config, json: Json<Shop>, store: Store, id: int, now: int): (r: Step<Shop>)
    ensures r.loads == 0
    ensures UnchangedExcept(store, r.store, {ShopLockKey(cfg, id)})
    ensures var found := ReadEnvelope(json, store, ShopKey(cfg, id));
      && (found.NoEnvelope? ==> r == Step(NotFound, store, 0, false))
      && (found.Unreadable? ==> r == Step(Malformed, store, 0, false))
      && (found.Readable? ==> r.answer == FromNullable(found.envelope.data))
      && (found.Readable? && !IsStale(found.envelope, now) ==> r.store == store && !r.rebuild)
      && (found.Readable? && IsStale(found.envelope, now) ==> (r.rebuild <==> ShopLockKey(cfg, id) !in store))
    ensures r.rebuild ==> TryLock(store, ShopLockKey(cfg, id)) == (true, r.store)
    ensures !r.rebuild ==> r.store == store
  {
    match ReadEnvelope(json, store, ShopKey(cfg, id))
    case NoEnvelope => Step(NotFound, store, 0, false)
    case Unreadable => Step(Malformed, store, 0, false)
    case Readable(e) =>
      var answer := FromNullable(e.data);
      if !IsStale(e, now) then Step(answer, store, 0, false)
      else
        var (locked, s) := TryLock(store, ShopLockKey(cfg, id));
        Step(answer, s, 0, locked)
  }

  /**
    `saveShop2Redis`: the shop row (possibly null) wrapped with a logical
    expiry `expireSeconds` after `now`, written with no physical expiry.
  */
  function SaveShop2Redis(cfg: Config, json: Json<Shop>, db: Db, store: Store, id: int,
                          expireSeconds: int, now: int): (r: Store)
    ensures var key := ShopKey(cfg, id);
      && key in r && r[key].ttl == Persistent
      && UnchangedExcept(store, r, {key})
      && (RoundTrips(json) ==>
            && !IsBlank(r[key].value)
            && json.envelopeToBean(r[key].value) == Some(Envelope(GetById(db, id), now + expireSeconds)))
  {
    Set(store, ShopKey(cfg, id), json.envelopeToJson(Wrap(GetById(db, id), expireSeconds, now)), Persistent)
  }

  /**
    The rebuild submitted on a stale read, run at its own `now`:
    `saveShop2Redis(id, 20)`, then release the lock in the `finally`.
  */
  function RebuildTask(cfg: Config, json: Json<Shop>, db: Db, store: Store, id: int, now: int): (r: Store)
    ensures var key := ShopKey(cfg, id);
            var lockKey := ShopLockKey(cfg, id);
      && lockKey !in r
      && UnchangedExcept(store, r, {key, lockKey})
      && (ValidConfig(cfg) ==> key in r && r[key].ttl == Persistent)
      && (ValidConfig(cfg) && RoundTrips(json) ==>
            json.envelopeToBean(r[key].value) == Some(Envelope(GetById(db, id), now + RebuildExpireSeconds)))
  {
    UnLock(SaveShop2Redis(cfg, json, db, store, id, RebuildExpireSeconds, now), ShopLockKey(cfg, id))
  }

  /** What `update` reports, and the table and cache it leaves behind. */
  datatype UpdateResult = UpdateResult(ok: bool, db: Db, store: Store)

  /**
    `update`: a shop without an id is refused and nothing is touched;
    otherwise the row is written first and the cached shop deleted after.
  */
  function Update(cfg: Config, db: Db, store: Store, shop: Shop): (r: UpdateResult)
    ensures shop.id.None? ==> r == UpdateResult(false, db, store)
    ensures shop.id.Some? ==>
      && r.ok
      && r.db == UpdateById(db, shop)
      && ShopKey(cfg, shop.id.value) !in r.store
      && UnchangedExcept(store, r.store, {ShopKey(cfg, shop.id.value)})
  {
    match shop.id
    case None => UpdateResult(false, db, store)
    case Some(id) => UpdateResult(true, UpdateById(db, shop), Delete(store, ShopKey(cfg, id)))
  }
}

=== FILE: shop_service_properties.dfy ===
/**
  Properties of the shop service: its copies agree with the generic client,
  the mutex strategy's guarantees and quirks, and invalidation on update.
*/
module ShopServiceProperties {
  import opened Wrappers
  import opened KvStore
  import opened Serialization
  import opened Answers
  import opened RedisConstants
  import opened Lock
  import opened ShopService
  import CacheClient

  /** The shop table as the generic client's loader. */
  function Loader(db: Db): int -> Option<Shop>
  {
    i => GetById(db, i)
  }

  /** The shop copy of pass-through is the generic client at the shop prefix and CACHE_SHOP_TTL minutes. */
  lemma PassThroughMatchesClient(cfg: Config, json: Json<Shop>, db: Db, store: Store, id: int)
    ensures QueryWithPassThrough(cfg, json, db, store, id)
         == CacheClient.QueryWithPassThrough(cfg, json, store, cfg.cacheShopKey, id, LongText, Loader(db),
                                             cfg.cacheShopTtl, Minutes)
  {
  }

  /** The shop copy of the logical-expiry read is the generic client's at the shop prefix. */
  lemma LogicalExpireMatchesClient(cfg: Config, json: Json<Shop>, store: Store, id: int, now: int)
    ensures QueryWithLogicalExpire(cfg, json, store, id, now)
         == CacheClient.QueryWithLogicalExpire(cfg, json, store, cfg.cacheShopKey, id, LongText, now)
  {
  }

  /**
    The two rebuild tasks leave the same keys holding the same values; they
    differ only in the physical expiry of the envelope: none for the shop
    service, the logical lifetime for the generic client.
  */
  lemma RebuildDiffersFromClientOnlyInTtl(cfg: Config, json: Json<Shop>, db: Db, store: Store, id: int, now: int)
    requires ValidConfig(cfg)
    ensures var mine := RebuildTask(cfg, json, db, store, id, now);
            var generic := CacheClient.RebuildTask(cfg, json, store, cfg.cacheShopKey, id, LongText, Loader(db),
                                                   RebuildExpireSeconds, Seconds, now);
            var key := ShopKey(cfg, id);
      && mine.Keys == generic.Keys
      && mine[key] == generic[key].(ttl := Persistent)
      && generic[key].ttl == Timed(RebuildExpireSeconds, Seconds)
      && UnchangedExcept(mine, generic, {key})
  {
  }

  /** Shop pass-through: a missing shop costs one table lookup, then the sentinel answers. */
  lemma ShopNullSentinelStopsRepeatedLoads(cfg: Config, json: Json<Shop>, db: Db, store: Store, id: int)
    requires ShopKey(cfg, id) !in store
    requires id !in db
    ensures var first := QueryWithPassThrough(cfg, json, db, store, id);
            var second := QueryWithPassThrough(cfg, json, db, first.store, id);
      && first.answer == NotFound && first.loads == 1
      && second == Step(NotFound, first.store, 0, false)
  {
  }

  /**
    Without contention the mutex strategy behaves exactly as pass-through:
    it takes the free lock, fills the cache and gives the lock back, so the
    store ends as if no lock had been involved.
  */
  lemma MutexUncontendedIsPassThrough(cfg: Config, json: Json<Shop>, db: Db, store: Store, id: int,
                                      waits: seq<Store>)
    requires ValidConfig(cfg)
    requires ShopLockKey(cfg, id) !in store
    ensures QueryWithMutex(cfg, json, db, store, id, waits) == QueryWithPassThrough(cfg, json, db, store, id)
  {
  }

  /** The store the mutex query sees on attempt `i`: the initial one, then one per wait. */
  function AttemptStore(store: Store, waits: seq<Store>, i: nat): Store
    requires i <= |waits|
  {
    if i == 0 then store else waits[i - 1]
  }

  /**
    An attempt that ends the query: it finds the shop cached (a value or the
    sentinel), or finds the key missing and the lock free.
  */
  predicate Decisive(cfg: Config, id: int, s: Store)
  {
    ShopKey(cfg, id) in s || ShopLockKey(cfg, id) !in s
  }

  /**
    The first decisive attempt decides the query: if it finds the shop
    cached, the answer is read from that store and the table is never read;
    otherwise that attempt reads the table and answers its row. Every
    attempt before it found the lock held and slept.
  */
  lemma {:induction false} MutexFirstDecisiveAttemptDecides(cfg: Config, json: Json<Shop>, db: Db, store: Store,
                                                            id: int, waits: seq<Store>, i: nat)
    requires i <= |waits|
    requires Decisive(cfg, id, AttemptStore(store, waits, i))
    requires forall j :: 0 <= j < i ==> !Decisive(cfg, id, AttemptStore(store, waits, j))
    ensures var r := QueryWithMutex(cfg, json, db, store, id, waits);
            var s := AttemptStore(store, waits, i);
            var key := ShopKey(cfg, id);
      && (key in s ==> r.answer == ReadCached(json, s[key].value) && r.loads == 0)
      && (key in s && i == 0 ==> r.store == s)
      && (key in s && i > 0 ==> r.store == UnLock(s, ShopLockKey(cfg, id)))
      && (key !in s ==> r.answer == FromNullable(GetById(db, id)) && r.loads == 1)
      && (key !in s ==> r.store == LoadUnderLock(cfg, json, db, s, id).value.store)
    decreases i
  {
    if i > 0 {
      assert !Decisive(cfg, id, store) by { assert AttemptStore(store, waits, 0) == store; }
      assert LoadUnderLock(cfg, json, db, store, id).None?;
      forall j | 0 <= j < i - 1
        ensures !Decisive(cfg, id, AttemptStore(waits[0], waits[1..], j))
      {
        assert AttemptStore(waits[0], waits[1..], j) == AttemptStore(store, waits, j + 1);
      }
      assert AttemptStore(waits[0], waits[1..], i - 1) == AttemptStore(store, waits, i);
      MutexFirstDecisiveAttemptDecides(cfg, json, db, waits[0], id, waits[1..], i - 1);
      var s := AttemptStore(store, waits, i);
      var lockKey := ShopLockKey(cfg, id);
      if ShopKey(cfg, id) !in s {
        var loaded := LoadUnderLock(cfg, json, db, s, id).value.store;
        assert UnLock(loaded, lockKey) == loaded;
      } else if i > 1 {
        assert UnLock(UnLock(s, lockKey), lockKey) == UnLock(s, lockKey);
      }
    }
  }

  /**
    When no attempt is decisive (the lock is held every time the caller
    looks and the shop is never cached), the caller gives up without
    reading the table, and leaves the store of its last attempt with only
    the lock deleted.
  */
  lemma {:induction false} MutexNoDecisiveAttemptGivesUp(cfg: Config, json: Json<Shop>, db: Db, store: Store,
                                                         id: int, waits: seq<Store>)
    requires forall j :: 0 <= j <= |waits| ==> !Decisive(cfg, id, AttemptStore(store, waits, j))
    ensures var r := QueryWithMutex(cfg, json, db, store, id, waits);
      && r.answer == Exhausted && r.loads == 0
      && ShopLockKey(cfg, id) !in r.store
      && r.store == UnLock(AttemptStore(store, waits, |waits|), ShopLockKey(cfg, id))
    decreases |waits|
  {
    assert !Decisive(cfg, id, store) by { assert AttemptStore(store, waits, 0) == store; }
    assert LoadUnderLock(cfg, json, db, store, id).None?;
    if |waits| > 0 {
      forall j | 0 <= j <= |waits| - 1
        ensures !Decisive(cfg, id, AttemptStore(waits[0], waits[1..], j))
      {
        assert AttemptStore(waits[0], waits[1..], j) == AttemptStore(store, waits, j + 1);
      }
      MutexNoDecisiveAttemptGivesUp(cfg, json, db, waits[0], id, waits[1..]);
      var last := AttemptStore(store, waits, |waits|);
      var lockKey := ShopLockKey(cfg, id);
      assert AttemptStore(waits[0], waits[1..], |waits| - 1) == last;
      assert UnLock(UnLock(last, lockKey), lockKey) == UnLock(last, lockKey);
    }
  }

  /**
    A caller that keeps finding the lock held (nobody else changes the store
    while it sleeps) retries until its schedule runs out, loads nothing,
    and on the way out deletes the lock it never acquired.
  */
  lemma {:induction false} MutexSpinsThenDeletesForeignLock(cfg: Config, json: Json<Shop>, db: Db, store: Store,
                                                            id: int, waits: seq<Store>)
    requires ShopKey(cfg, id) !in store
    requires ShopLockKey(cfg, id) in store
    requires forall i :: 0 <= i < |waits| ==> waits[i] == store
    ensures QueryWithMutex(cfg, json, db, store, id, waits)
         == Step(Exhausted, UnLock(store, ShopLockKey(cfg, id)), 0, false)
    decreases |waits|
  {
    if |waits| > 0 {
      MutexSpinsThenDeletesForeignLock(cfg, json, db, store, id, waits[1..]);
    }
  }

  /**
    A caller that fails the lock and, after one sleep, finds the shop cached
    by the holder answers from the cache without loading, and still deletes
    the lock key, whoever holds it by then.
  */
  lemma MutexRetryReadsRebuiltValue(cfg: Config, json: Json<Shop>, db: Db, store: Store, id: int,
                                    waits: seq<Store>)
    requires ShopKey(cfg, id) !in store
    requires ShopLockKey(cfg, id) in store
    requires |waits| > 0 && ShopKey(cfg, id) in waits[0]
    ensures QueryWithMutex(cfg, json, db, store, id, waits)
         == Step(ReadCached(json, waits[0][ShopKey(cfg, id)].value), UnLock(waits[0], ShopLockKey(cfg, id)), 0, false)
  {
  }

  /**
    Warming the cache with `saveShop2Redis` for a positive number of seconds
    makes the logical-expiry read return the table's row without a lock or
    rebuild until that time has passed.
  */
  lemma SaveShop2RedisThenFreshRead(cfg: Config, json: Json<Shop>, db: Db, store: Store, id: int,
                                    expireSeconds: int, now: int, at: int)
    requires RoundTrips(json)
    requires now <= at < now + expireSeconds
    ensures var warmed := SaveShop2Redis(cfg, json, db, store, id, expireSeconds, now);
            QueryWithLogicalExpire(cfg, json, warmed, id, at) == Step(FromNullable(GetById(db, id)), warmed, 0, false)
  {
  }

  /**
    A stale read that takes the lock, followed by its rebuild, frees the
    lock and leaves an envelope the next twenty seconds of reads return
    fresh: the table's current row.
  */
  lemma StaleReadRebuildRefreshes(cfg: Config, json: Json<Shop>, db: Db, store: Store, id: int,
                                  now: int, later: int, at: int)
    requires ValidConfig(cfg) && RoundTrips(json)
    requires QueryWithLogicalExpire(cfg, json, store, id, now).rebuild
    requires later <= at < later + RebuildExpireSeconds
    ensures var q := QueryWithLogicalExpire(cfg, json, store, id, now);
            var rebuilt := RebuildTask(cfg, json, db, q.store, id, later);
      && ShopLockKey(cfg, id) !in rebuilt
      && QueryWithLogicalExpire(cfg, json, rebuilt, id, at) == Step(FromNullable(GetById(db, id)), rebuilt, 0, false)
  {
  }

  /**
    After an update the next pass-through read misses, loads the updated
    row and caches it: the pre-update value is never served.
  */
  lemma UpdateThenPassThroughReadsNewRow(cfg: Config, json: Json<Shop>, db: Db, store: Store, shop: Shop)
    requires shop.id.Some? && shop.id.value in db
    ensures var u := Update(cfg, db, store, shop);
            var q := QueryWithPassThrough(cfg, json, u.db, u.store, shop.id.value);
      && q.answer == Found(shop) && q.loads == 1
      && q.store[ShopKey(cfg, shop.id.value)] == ShopEntry(cfg, json, shop)
  {
  }

  /**
    The logical-expiry strategy never falls back to the table: after an
    update deletes the envelope, reads of that shop answer null until the
    cache is warmed again.
  */
  lemma UpdateThenLogicalReadIsNull(cfg: Config, json: Json<Shop>, db: Db, store: Store, shop: Shop, now: int)
    requires shop.id.Some?
    ensures var u := Update(cfg, db, store, shop);
            QueryWithLogicalExpire(cfg, json, u.store, shop.id.value, now) == Step(NotFound, u.store, 0, false)
  {
  }

  /** `n` mutex-strategy queries for one shop, one after another, each with an empty retry schedule. */
  function MutexRun(cfg: Config, json: Json<Shop>, db: Db, store: Store, id: int, n: nat): (seq<Answer<Shop>>, nat, Store)
    decreases n
  {
    if n == 0 then ([], 0, store)
    else
      var q := QueryWithMutex(cfg, json, db, store, id, []);
      var rest := MutexRun(cfg, json, db, q.store, id, n - 1);
      ([q.answer] + rest.0, q.loads + rest.1, rest.2)
  }

  /** Once the shop is cached (row or sentinel), further mutex queries answer from it and change nothing. */
  lemma {:induction false} WarmMutexRunIsSilent(cfg: Config, json: Json<Shop>, db: Db, store: Store, id: int, n: nat)
    requires ShopKey(cfg, id) in store
    ensures var run := MutexRun(cfg, json, db, store, id, n);
      && |run.0| == n
      && (forall i :: 0 <= i < n ==> run.0[i] == ReadCached(json, store[ShopKey(cfg, id)].value))
      && run.1 == 0
      && run.2 == store
    decreases n
  {
    if n > 0 {
      WarmMutexRunIsSilent(cfg, json, db, store, id, n - 1);
    }
  }

  /**
    Queries for one cold shop, made while no lock is held, read the table
    once in all and give every caller the same answer: the row that was
    loaded, or null. The lock is free again at the end.
  */
  lemma {:induction false} RepeatedMutexLoadsOnce(cfg: Config, json: Json<Shop>, db: Db, store: Store, id: int, n: nat)
    requires ValidConfig(cfg) && RoundTrips(json)
    requires ShopKey(cfg, id) !in store && ShopLockKey(cfg, id) !in store
    requires n > 0
    ensures var run := MutexRun(cfg, json, db, store, id, n);
      && |run.0| == n
      && run.1 == 1
      && (forall i :: 0 <= i < n ==> run.0[i] == FromNullable(GetById(db, id)))
      && ShopLockKey(cfg, id) !in run.2
  {
    var q := QueryWithMutex(cfg, json, db, store, id, []);
    MutexUncontendedIsPassThrough(cfg, json, db, store, id, []);
    WarmMutexRunIsSilent(cfg, json, db, q.store, id, n - 1);
    assert ReadCached(json, q.store[ShopKey(cfg, id)].value) == q.answer;
  }
}

=== FILE: wrappers.dfy ===
/** Optional values: the model's stand-in for a Java reference that may be null. */
module Wrappers {

  datatype Option<+T> = None | Some(value: T)
}
